=== FILE: README.md ===
# Court cause-list scraper: a Dafny model

The scraper fetches the daily cause list of the Gurugram district courts from the
court portal and saves it as a PDF. An operator answers a few prompts, and the
program then opens a browser once per scrape. The operator fills in the portal's
form and solves the CAPTCHA. The program saves the result page under a file name
built from the court number, the case type and the date.

This project models the deterministic logic around that browser session:

- `strings.dfy` (module `Strings`): the Python `str` operations the code relies on.
  These are `strip()`, `lower()`, one-character `replace` and `split(',')`, restricted to ASCII.
- `config.dfy` (module `Config`): the configuration constants that the modelled code reads.
- `scrape.dfy` (module `Scrape`): one scrape request. It covers the cleaning of the court
  number and the date, the PDF file name and path, and how a scrape ends for its caller.
  The browser session is a `Session` value. `Finished` returns `True`. `Caught` is an
  exception inside the `try` block, caught there, and returns `False`. `Escaped` is an
  exception that the `try` does not catch; it propagates to the caller. That is an
  exception while launching the browser or opening the page (before the `try`), one while
  closing the browser in the `finally` block, or one that is not an `Exception`, such as
  Ctrl+C at the ENTER prompt (scraper.py:64) or a cancellation at an `await` inside the
  `try`, which passes through the `finally`. `Caught` and
  `Escaped` record whether `page.pdf` had already written the file, because the messages
  after the export are still inside the `try`.
- `batch.dfy` (module `Batch`): `run_batch_scrape`. It visits every court number ×
  case type pair, court number outer, and pauses between scrapes. A scrape that returns
  `False` is counted and the batch goes on. A scrape that raises ends the batch at once,
  with no pause and no tally update. The sessions are an oracle `sessions: nat -> Session`
  indexed by the scrape's position in the batch, so the same request can end differently
  at two positions. The source only prints the tally, but `RunBatch` returns it, together
  with the trace of scrapes and pauses and the number of scrapes started.
- `frontend.dfy` (module `Frontend`): `main` and `get_date_input`. The prompt answers
  are the parameter `Answers`, the clock is the parameter `today`, and the sessions are
  the same oracle. The module covers the menu dispatch, the case-type choices, the
  court-list parsing, the date default and the `yes` confirmation gate.

The file name cleaning only turns spaces into `_`, drops `.` and `,`, and turns `/` in
the date into `-`. `Scrape.FileNameSlashes` shows that a `/` in the court number
survives into the file name. The PDF then goes to a subdirectory of `outputs/`, which
`setup_directories` (main.py:7-9) never creates. `Scrape.FileNameStaysInside` shows that,
with `/` as the only path separator, the path can never climb out of `outputs/`. `Scrape.PdfPathCollisions` shows that court
numbers which clean to the same text, such as `1.` and `1`, share a PDF path.

## Model

| member | source | states |
|---|---|---|
| `Strings.ReplaceChar` | scraper.py:76-77 | `replace` of one character by another keeps the length, and changes exactly the positions that held the replaced character. |
| `Strings.DeleteChar` | scraper.py:76 | `replace(c, '')` removes every `c`, and the result is shorter by exactly the number of `c` in the input. |
| `Strings.DeleteConcat` | scraper.py:76 | Deleting a character from a concatenation deletes it from each part and keeps the parts in order. |
| `Strings.DeleteOne` | scraper.py:76 | A single character is dropped iff it is the deleted one. With `DeleteConcat`, this fixes the result as the other characters in their original order. |
| `Strings.CountDeleted` | scraper.py:76 | Dropping every `.` (or every `,`) leaves the number of occurrences of every other character unchanged. |
| `Scrape.CleanCourtNumber` | scraper.py:76 | The cleaned court number has no space, `.` or `,`. Its length is the original length minus the number of dots and commas, because each space becomes exactly one `_`. |
| `Scrape.CleanCourtNumberIsOnePass` | scraper.py:76 | The three chained `replace` calls have the same effect as one left-to-right pass. That pass drops `.` and `,`, turns a space into `_`, and keeps every other character in order. |
| `Scrape.CleanCourtNumberIdempotent` | scraper.py:76 | Cleaning an already cleaned court number returns it unchanged. |
| `Scrape.CleanCourtNumberKeeps` | scraper.py:76 | Every character other than space, `_`, `.` and `,` occurs in the cleaned court number as often as in the original. |
| `Scrape.CleanDate` | scraper.py:77 | The cleaned date has no `/` and the same length as the input. It differs from the input only where the input had a `/`, which becomes `-`. |
| `Scrape.FileName` | scraper.py:78 | The file name starts with `CauseList_Court` and ends with `.pdf`. Its length is the prefix, the cleaned court number, the case type, the date, two `_` and the extension. |
| `Scrape.PdfPath` | scraper.py:78 | The PDF path starts with `outputs/CauseList_Court` and ends with `.pdf`. |
| `Scrape.FileNameSlashes` | scraper.py:76-78 | The file name has exactly as many `/` as the court number and the case type together. So it holds a `/` iff one of them does, and the date never adds one. |
| `Scrape.FileNameStaysInside` | scraper.py:76-78 | For a case type without `/`, no `/`-separated part of the file name is `.` or `..`. So, with `/` as the only path separator, the PDF path stays inside the output directory, even when the court number holds `/`. |
| `Scrape.PdfPathCollisions` | scraper.py:76-78 | For a fixed case type and date, two court numbers give the same PDF path iff they clean to the same text. |
| `Scrape.ExampleCollision` | scraper.py:76-78 | Court numbers `1.` and `1` with the same case type and date are saved to the same PDF path, so the second scrape overwrites the first. |
| `Batch.Requests` | scraper.py:125-135 | A batch has `len(court_numbers) * len(case_types)` requests. |
| `Batch.RequestsOrder` | scraper.py:134-146 | Scrape number `i * m + j` (from 0, with `m` case types) is court number `i` with case type `j`: court number outer, case type inner. |
| `Batch.RowAt` | scraper.py:134-146 | The scrapes of court number `i` fill the `m` positions from `i * m` on, one per case type in order, and stay within the batch. |
| `Batch.RequestsFields` | scraper.py:141-146 | Every scrape of a batch uses the batch's complex and date, one of its court numbers and one of its case types. |
| `Batch.ExampleOrder` | scraper.py:134-146 | `["1","2"]` × `["Civil","Criminal"]` is scraped as (1,Civil), (1,Criminal), (2,Civil), (2,Criminal). |
| `Batch.RunBatch` | scraper.py:121-153 | The total is the number of court numbers times the number of case types. The batch stops right after the first scrape that raises, or at the end. Its trace is the reference trace of the requests started, in nested order, and the tally is the number of those sessions that finished. |
| `Batch.RunRow` | scraper.py:135-153 | The inner loop for one court number runs a scrape per case type, in order. It stops right after a scrape that raises and otherwise completes the row. The trace and the tally extend the batch's reference trace and count. |
| `Batch.Visit` | scraper.py:136-153 | One pass of the inner loop counts one more scrape. It raises iff the session escaped, tallies it iff the session finished, and extends the trace to the reference trace of one more request. |
| `Batch.StopsAtUnique` | scraper.py:134-153 | Where a batch stops is determined by the sessions: it cannot stop at two places. |
| `Batch.TraceAttempts` | scraper.py:134-149 | The scrapes of a trace are exactly the requests started, in order. A scrape that returns `False` does not end the batch. |
| `Batch.TraceSuccesses` | scraper.py:141-149 | The tally of a trace equals the number of sessions that finished, that is, of scrapes that returned `True`. |
| `Batch.TracePauses` | scraper.py:151-153 | A pause follows every scrape except the one that completes the batch and one that raised. A batch that stops where it must pauses one time fewer than it scrapes. |
| `Batch.TraceShape` | scraper.py:151-153 | Scrape `k` sits at position `2k` of the trace and a pause at every odd position. The last scrape of a stopped batch ends the trace, so every pause lies between two scrapes. |
| `Batch.RunSummary` | scraper.py:134-153 | A batch that stops where it must scrapes each started request once, in order. Its tally counts the finished sessions, and it has one pause fewer than scrapes. |
| `Batch.TraceWrites` | scraper.py:76-98 | The PDFs a batch writes are exactly the paths of the requests whose session exported its page: every such path is written, and nothing else is. |
| `Batch.BatchOverwrites` | scraper.py:76-78 | Within a batch, the scrapes of two court numbers for one case type write the same PDF iff the court numbers clean to the same text. |
| `Strings.Strip` | main.py:14 | `strip()` never lengthens its input, and the result has no whitespace at either end. |
| `Strings.StripInfix` | main.py:14 | What `strip()` keeps is the infix of the input that starts where the leading whitespace ends. Only whitespace comes before it and only whitespace comes after it. |
| `Strings.StripUnique` | main.py:14 | Whatever sits between two whitespace runs and has no whitespace at either end is exactly what `strip()` returns. |
| `Strings.StripMargins` | main.py:69-70 | Whitespace added at either end of a string does not change what `strip()` returns. |
| `Strings.StrippedIff` | main.py:70 | A string is left unchanged by `strip()` iff it has no whitespace at either end. |
| `Strings.StripIdempotent` | main.py:70 | Stripping twice gives the same result as stripping once. |
| `Strings.StripEmptyIff` | main.py:14-15 | The stripped answer is empty iff the answer is all whitespace. |
| `Strings.Split` | main.py:70 | `split(',')` yields one more piece than there are commas, and no piece holds a comma. |
| `Strings.JoinSplit` | main.py:70 | Joining the pieces of `split(',')` with `,` gives the string back. |
| `Strings.SplitJoin` | main.py:70 | Splitting a comma-join of comma-free pieces gives the pieces back. |
| `Strings.SplitFrame` | main.py:69-70 | Separator-free text glued to either end of a string only lengthens the first and the last piece of its split. |
| `Strings.Lower` | main.py:90 | `lower()` keeps the length and folds `A`..`Z` to `a`..`z` position by position. |
| `Frontend.FormatDate` | main.py:12 | Today's date is written as ten characters `dd/mm/yyyy`, with digits everywhere except positions 2 and 5. The three fields read back as the day, month and year. |
| `Frontend.DateInput` | main.py:11-15 | An all-whitespace answer gives today's `dd/mm/yyyy`. Any other answer gives the answer stripped. The result is never empty and has no whitespace at either end. |
| `Frontend.SingleCaseType` | main.py:51-52 | In single mode the answer `1` gives `Civil` and every other answer gives `Criminal`. Both are configured case types. |
| `Frontend.BatchCaseTypes` | main.py:76-83 | In batch mode, `1` gives `["Civil"]` and `2` gives `["Criminal"]` (each iff), and any other answer gives `CASE_TYPES`. The list is never empty. |
| `Frontend.StripAll` | main.py:70 | Stripping every piece keeps the number of pieces. Each entry is its piece stripped, with no whitespace at either end. |
| `Frontend.ParseCourtNumbers` | main.py:69-70 | The court list is the answer's comma-separated pieces, each stripped: stripping the whole answer first changes nothing. It has one entry per comma in the stripped answer, plus one, and no entry holds a comma or surrounding whitespace. A blank answer gives `[""]`. |
| `Frontend.SplitStripped` | main.py:69-70 | Stripping the line before splitting it at commas gives the same stripped pieces as splitting it as typed. |
| `Frontend.SplitMargins` | main.py:69-70 | Whitespace around a line does not change the stripped pieces of its split at commas. |
| `Frontend.StripKeepsAbsent` | main.py:70 | Stripping a comma-free piece cannot introduce a comma. |
| `Frontend.CourtListRoundTrip` | main.py:69-70 | Typing comma-free court numbers joined by commas gives them back, each stripped. Court numbers without surrounding whitespace come back exactly as typed. |
| `Frontend.ExampleCourtList` | main.py:69-70 | An answer such as ` 1, 2 ` (two one-character court numbers with spaces around them) gives the list `["1", "2"]`. |
| `Frontend.Confirmed` | main.py:90-91 | The batch is confirmed iff the stripped answer is three letters y, e, s, each in either case. |
| `Frontend.LowerYesIff` | main.py:90-91 | A string lower-cases to `yes` iff it is three characters, each the matching letter of `yes` in lower or upper case. |
| `Frontend.Dispatch` | main.py:39-108 | After strip, menu `1` gives a single scrape, `2` gives a batch iff confirmed (otherwise cancelled), `3` gives goodbye, and anything else is invalid. Each scrape request uses `DEFAULT_COURT_COMPLEX` and the parsed court numbers, case types and date. |
| `Frontend.ScrapesOnlyWhenChosen` | main.py:39-108 | The plan holds a scrape iff the operator picks a single scrape, or picks a batch and confirms it. |
| `Frontend.Execute` | main.py:41-100 | Running a plan starts its scrapes in order and stops right after the first that raises, or at the end. The trace is the reference trace of the started scrapes, and the run is empty iff the plan has no scrapes. |
| `Frontend.RunMain` | main.py:39-108 | `main` scrapes something iff the operator picks `1`, or picks `2` and confirms. What it scrapes is a prefix of the plan's scrapes. Exit, an invalid choice and a cancelled batch run nothing. |

## Left out

- The browser session itself (launch, navigation, manual form filling, screenshots, PDF export, browser close) is foreign asynchronous I/O. Its outcome is the `Session` value of `Scrape.ScrapeAndSave` and the `sessions` oracle of `Batch.RunBatch`.
- The `asyncio.sleep(3)` between scrapes (scraper.py:151-153) is the `Pause` event of the trace. The sleeps inside a scrape (scraper.py:48, 68, 117) belong to the browser session. No duration is modelled.
- The timestamped screenshot and error-screenshot file names (scraper.py:71, scraper.py:107) depend on the wall clock and are not modelled. An exception while taking the error screenshot is swallowed (scraper.py:110-111) and does not change the outcome.
- `print`, logging, `input()`, `os.makedirs` and `.env` loading are side-effect plumbing. Prompt answers become the `Answers` parameter.
- The entry point (main.py:116-122) prints an exception that ends `main`, or `Interrupted by user` for Ctrl+C, and then exits. In the model, that exception is the `Escaped` session at which `Frontend.Execute` stops. A `KeyboardInterrupt` at one of `main`'s own prompts (main.py:14, 39-90) is not modelled; one during a scrape is an `Escaped` session.
- `Scrape.FileNameStaysInside` treats `/` as the only path separator. On a platform where `\` also separates path parts, the date, which keeps its `.` and `\` (scraper.py:77), can lead the path out of `outputs/`; that case is not modelled.
- `Config.COURT_COMPLEXES` is kept as data only, because the manual-fill scraper never uses the complex codes. `BASE_URL` and `DEFAULT_COURT_NUMBERS` are not used by the modelled logic.
- `Strings.Strip` and `Strings.Lower` model Python's `strip()` and `lower()` on ASCII only. Non-ASCII whitespace and non-ASCII case folding are out of scope.
- `Frontend.FormatDate` requires a year from 1000 to 9999. Python's `%Y` padding for earlier years depends on the platform. Day-of-month validity is the clock's concern and is not rechecked.
- The batch total printed before the confirmation (main.py:87) is display only. It equals the length established by `Batch.Requests`.
- Frontend.RunMain: its contract states whether anything runs and that the scrapes are a prefix of the plan. Which scrapes run, and where a run stops, is stated by `Frontend.Execute` for the plan that `Frontend.Dispatch` builds, and `RunMain` is exactly that composition.

=== FILE: batch.dfy ===
/**
 The batch coordinator: one scrape per (court number, case type) pair, court
 number outer and case type inner, a pause between consecutive scrapes, and a
 tally of the scrapes that returned success. A scrape that returns failure is
 counted and the batch carries on. An exception that escapes a scrape ends
 the batch on the spot: no tally update, no pause, no further scrape.

 How each browser session ends is an oracle `sessions: nat -> Session`,
 indexed by the position of the scrape in the batch (from 0), so the same
 request may end differently at two positions. The coordinator only prints
 its tally; the model returns it, together with the trace of scrapes and
 pauses and the number of scrapes started, so that they can be stated.
 */
module Batch {
  import opened Scrape

  /** What the coordinator does, in order: run a scrape (which ends in some
      session outcome) or wait before the next one. */
  datatype Event = Attempt(req: Request, session: Session) | Pause

  /** The requests for one court number, one per case type, in order. */
  function Row(complex: string, court: string, date: string, caseTypes: seq<string>): (row: seq<Request>)
    decreases |caseTypes|
  {
    if |caseTypes| == 0 then []
    else Row(complex, court, date, caseTypes[..|caseTypes| - 1])
         + [Request(complex, court, date, caseTypes[|caseTypes| - 1])]
  }

  /** The Cartesian product courts x case types, court number outer: one
      request per pair, `len(court_numbers) * len(case_types)` in all. */
  function Requests(complex: string, courts: seq<string>, date: string, caseTypes: seq<string>): (rs: seq<Request>)
    ensures |rs| == |courts| * |caseTypes|
    decreases |courts|
  {
    if |courts| == 0 then []
    else
      RowLength(complex, courts[|courts| - 1], date, caseTypes);
      assert (|courts| - 1) * |caseTypes| + |caseTypes| == |courts| * |caseTypes|;
      Requests(complex, courts[..|courts| - 1], date, caseTypes)
      + Row(complex, courts[|courts| - 1], date, caseTypes)
  }

  /** The events of scrape number `k` (from 0) of a batch of `total`: the
      scrape itself, then a pause unless it was the last one or raised. */
  function Step(req: Request, k: nat, total: nat, s: Session): seq<Event>
  {
    [Attempt(req, s)] + (if !s.Escaped? && k + 1 < total then [Pause] else [])
  }

  /** Reference trace of running the requests `rs` one after the other as
      the first scrapes of a batch of `total`. */
  function Trace(rs: seq<Request>, total: nat, sessions: nat -> Session): seq<Event>
    decreases |rs|
  {
    if |rs| == 0 then []
    else Trace(rs[..|rs| - 1], total, sessions) + Step(rs[|rs| - 1], |rs| - 1, total, sessions(|rs| - 1))
  }

  /** No scrape before position `n` raised. */
  predicate RanThrough(sessions: nat -> Session, n: int)
  {
    forall k: nat :: k < n ==> !sessions(k).Escaped?
  }

  /** A batch of `total` scrapes that started `ran` of them stopped where it
      had to: right after the first scrape that raised, or at the end. */
  predicate StopsAt(sessions: nat -> Session, total: nat, ran: nat)
  {
    && ran <= total
    && RanThrough(sessions, ran - 1)
    && (ran == total || (ran > 0 && sessions(ran - 1).Escaped?))
  }

  /** The requests that were scraped, in order. */
  function Attempted(trace: seq<Event>): seq<Request>
    decreases |trace|
  {
    if |trace| == 0 then []
    else Attempted(trace[..|trace| - 1])
         + (if trace[|trace| - 1].Attempt? then [trace[|trace| - 1].req] else [])
  }

  /** The number of scrapes that returned success. */
  function Successes(trace: seq<Event>): nat
    decreases |trace|
  {
    if |trace| == 0 then 0
    else
      var e := trace[|trace| - 1];
      Successes(trace[..|trace| - 1])
      + (if e.Attempt? && ScrapeAndSave(e.req, e.session) == Returned(true) then 1 else 0)
  }

  /** The number of pauses. */
  function Pauses(trace: seq<Event>): nat
    decreases |trace|
  {
    if |trace| == 0 then 0
    else Pauses(trace[..|trace| - 1]) + (if trace[|trace| - 1].Pause? then 1 else 0)
  }

  /** The PDF files written, in order (a path may repeat). */
  function Written(trace: seq<Event>): seq<string>
    decreases |trace|
  {
    if |trace| == 0 then []
    else
      var e := trace[|trace| - 1];
      Written(trace[..|trace| - 1]) + (if e.Attempt? && Exported(e.session) then [PdfOf(e.req)] else [])
  }

  /** The number of sessions among the first `n` that ran to the end. */
  function CountFinished(sessions: nat -> Session, n: nat): (count: nat)
    ensures count <= n
  {
    if n == 0 then 0
    else CountFinished(sessions, n - 1) + (if sessions(n - 1).Finished? then 1 else 0)
  }

  /** The batch, as `run_batch_scrape` runs it. Returns the trace of scrapes
      and pauses, the number of scrapes started, the number that returned
      success, and the batch size. */
  method RunBatch(complex: string, courts: seq<string>, date: string, caseTypes: seq<string>,
                  sessions: nat -> Session)
    returns (trace: seq<Event>, completed: nat, successful: nat, total: nat)
    ensures total == |courts| * |caseTypes|
    ensures StopsAt(sessions, total, completed)
    ensures trace == Trace(Requests(complex, courts, date, caseTypes)[..completed], total, sessions)
    ensures successful == CountFinished(sessions, completed)
  {
    ghost var rs := Requests(complex, courts, date, caseTypes);
    var m := |caseTypes|;
    total := |courts| * m;
    completed := 0;
    successful := 0;
    trace := [];
    for i := 0 to |courts|
      invariant completed == i * m && completed <= total
      invariant RanThrough(sessions, completed)
      invariant trace == Trace(rs[..completed], total, sessions)
      invariant successful == CountFinished(sessions, completed)
    {
      RowAt(complex, courts, date, caseTypes, i);
      MulSucc(i, m);
      var raised;
      completed, successful, trace, raised :=
        RunRow(rs, complex, courts[i], date, caseTypes, sessions, total, completed, successful, trace);
      if raised {
        return;
      }
    }
  }

  /** The inner loop for one court number: a scrape per case type, in
      order, from scrape number `completed` on, stopping at the first
      scrape that raises. `rs` is the whole batch. */
  method RunRow(ghost rs: seq<Request>, complex: string, court: string, date: string, caseTypes: seq<string>,
                sessions: nat -> Session, total: nat, completed: nat, successful: nat, trace: seq<Event>)
    returns (completed': nat, successful': nat, trace': seq<Event>, raised: bool)
    requires completed + |caseTypes| <= |rs|
    requires forall j :: 0 <= j < |caseTypes| ==> rs[completed + j] == Request(complex, court, date, caseTypes[j])
    requires RanThrough(sessions, completed)
    requires trace == Trace(rs[..completed], total, sessions)
    requires successful == CountFinished(sessions, completed)
    ensures raised ==> completed < completed' <= completed + |caseTypes|
    ensures raised ==> sessions(completed' - 1).Escaped? && RanThrough(sessions, completed' - 1)
    ensures !raised ==> completed' == completed + |caseTypes| && RanThrough(sessions, completed')
    ensures trace' == Trace(rs[..completed'], total, sessions)
    ensures successful' == CountFinished(sessions, completed')
  {
    completed', successful', trace', raised := completed, successful, trace, false;
    for j := 0 to |caseTypes|
      invariant completed' == completed + j
      invariant RanThrough(sessions, completed')
      invariant trace' == Trace(rs[..completed'], total, sessions)
      invariant successful' == CountFinished(sessions, completed')
    {
      ghost var before := completed';
      var result;
      completed', successful', trace', result :=
        Visit(rs, Request(complex, court, date, caseTypes[j]), completed', successful', total, trace', sessions);
      if result.Raised? {
        raised := true;
        return;
      }
      RanOn(sessions, before);
    }
  }

  /** The body of the inner loop: count the scrape and run it; an exception
      escapes at once, otherwise a success is tallied and a pause follows
      unless this was the last scrape of the batch. */
  method Visit(ghost rs: seq<Request>, req: Request, completed: nat, successful: nat, total: nat,
               trace: seq<Event>, sessions: nat -> Session)
    returns (completed': nat, successful': nat, trace': seq<Event>, result: ScrapeResult)
    requires completed < |rs| && rs[completed] == req
    requires trace == Trace(rs[..completed], total, sessions)
    requires successful == CountFinished(sessions, completed)
    ensures completed' == completed + 1
    ensures result.Raised? <==> sessions(completed).Escaped?
    ensures successful' == CountFinished(sessions, completed')
    ensures trace' == Trace(rs[..completed'], total, sessions)
  {
    var session := sessions(completed);
    completed' := completed + 1;
    result := ScrapeAndSave(req, session);
    TraceAdvance(rs, completed, total, sessions);
    trace' := trace + [Attempt(req, session)];
    successful' := successful;
    if result.Raised? {
      return;
    }
    if result.success {
      successful' := successful + 1;
    }
    if completed' < total {
      trace' := trace' + [Pause];
    }
  }

  /** The position where a batch stops is determined by the sessions. */
  lemma {:induction false} StopsAtUnique(sessions: nat -> Session, total: nat, a: nat, b: nat)
    requires StopsAt(sessions, total, a) && StopsAt(sessions, total, b)
    ensures a == b
  {
  }

  /** A complete run: every started request scraped once in order, the
      tally equal to the number of sessions that finished, and one pause
      fewer than scrapes. */
  lemma {:induction false} RunSummary(rs: seq<Request>, total: nat, sessions: nat -> Session)
    requires StopsAt(sessions, total, |rs|)
    ensures Attempted(Trace(rs, total, sessions)) == rs
    ensures Successes(Trace(rs, total, sessions)) == CountFinished(sessions, |rs|)
    ensures Pauses(Trace(rs, total, sessions)) == if |rs| == 0 then 0 else |rs| - 1
  {
    TracePauses(rs, total, sessions);
    TraceAttempts(rs, total, sessions);
    TraceSuccesses(rs, total, sessions);
  }

  lemma {:induction false} TraceSnoc(rs: seq<Request>, req: Request, total: nat, sessions: nat -> Session)
    ensures Trace(rs + [req], total, sessions) == Trace(rs, total, sessions) + Step(req, |rs|, total, sessions(|rs|))
  {
    assert (rs + [req])[..|rs|] == rs;
  }

  lemma {:induction false} SnocEvent(t: seq<Event>, e: Event)
    ensures Attempted(t + [e]) == Attempted(t) + (if e.Attempt? then [e.req] else [])
    ensures Successes(t + [e]) == Successes(t) + (if e.Attempt? && e.session.Finished? then 1 else 0)
    ensures Pauses(t + [e]) == Pauses(t) + (if e.Pause? then 1 else 0)
    ensures Written(t + [e]) == Written(t) + (if e.Attempt? && Exported(e.session) then [PdfOf(e.req)] else [])
  {
    assert (t + [e])[..|t|] == t;
  }

  /** Appending the events of one step to a trace adds one scrape, one
      success if it finished, the PDF if it was written, and one pause
      unless it was the last or raised. */
  lemma {:induction false} StepAppended(t: seq<Event>, req: Request, k: nat, total: nat, s: Session)
    ensures Attempted(t + Step(req, k, total, s)) == Attempted(t) + [req]
    ensures Successes(t + Step(req, k, total, s)) == Successes(t) + (if s.Finished? then 1 else 0)
    ensures Pauses(t + Step(req, k, total, s)) == Pauses(t) + (if !s.Escaped? && k + 1 < total then 1 else 0)
    ensures Written(t + Step(req, k, total, s)) == Written(t) + (if Exported(s) then [PdfOf(req)] else [])
  {
    var a := Attempt(req, s);
    SnocEvent(t, a);
    if !s.Escaped? && k + 1 < total {
      SnocEvent(t + [a], Pause);
      assert t + Step(req, k, total, s) == t + [a] + [Pause];
    } else {
      assert t + Step(req, k, total, s) == t + [a];
    }
  }

  lemma {:induction false} TraceAdvance(rs: seq<Request>, n: nat, total: nat, sessions: nat -> Session)
    requires n < |rs|
    ensures Trace(rs[..n + 1], total, sessions) == Trace(rs[..n], total, sessions) + Step(rs[n], n, total, sessions(n))
  {
    assert rs[..n + 1] == rs[..n] + [rs[n]];
    TraceSnoc(rs[..n], rs[n], total, sessions);
  }

  lemma {:induction false} RanOn(sessions: nat -> Session, n: nat)
    requires RanThrough(sessions, n) && !sessions(n).Escaped?
    ensures RanThrough(sessions, n + 1)
  {
  }

  lemma {:induction false} MulSucc(i: nat, m: nat)
    ensures (i + 1) * m == i * m + m
  {
  }

  lemma {:induction false} MulMono(a: nat, b: nat, m: nat)
    requires a <= b
    ensures a * m <= b * m
    decreases b - a
  {
    if a < b {
      MulMono(a, b - 1, m);
      assert (b - 1) * m + m == b * m;
    }
  }

  lemma {:induction false} MoreRowsFit(i: nat, j: nat, n: nat, m: nat)
    requires i < n && j < m
    ensures i * m + j + 1 <= n * m
  {
    MulMono(i + 1, n, m);
    assert (i + 1) * m == i * m + m;
  }

  lemma {:induction false} RowLength(complex: string, court: string, date: string, caseTypes: seq<string>)
    ensures |Row(complex, court, date, caseTypes)| == |caseTypes|
    ensures forall j :: 0 <= j < |caseTypes| ==>
      Row(complex, court, date, caseTypes)[j] == Request(complex, court, date, caseTypes[j])
    decreases |caseTypes|
  {
    if |caseTypes| > 0 {
      var init := caseTypes[..|caseTypes| - 1];
      RowLength(complex, court, date, init);
    }
  }

  /** Every request of a batch is against the batch's complex and date,
      for one of its court numbers and one of its case types. */
  lemma {:induction false} RequestsFields(complex: string, courts: seq<string>, date: string, caseTypes: seq<string>)
    ensures forall r :: r in Requests(complex, courts, date, caseTypes) ==>
      r.complex == complex && r.date == date && r.courtNumber in courts && r.caseType in caseTypes
    decreases |courts|
  {
    if |courts| > 0 {
      var init := courts[..|courts| - 1];
      var last := courts[|courts| - 1];
      var row := Row(complex, last, date, caseTypes);
      RequestsFields(complex, init, date, caseTypes);
      RowLength(complex, last, date, caseTypes);
      forall r | r in Requests(complex, courts, date, caseTypes)
        ensures r.complex == complex && r.date == date && r.courtNumber in courts && r.caseType in caseTypes
      {
        if r in row {
          var j :| 0 <= j < |row| && row[j] == r;
        } else {
          assert r in Requests(complex, init, date, caseTypes);
          assert r.courtNumber in init;
        }
      }
    }
  }

  /** Nested order: scrape number `i * |caseTypes| + j` (from 0) is court
      number `i` with case type `j`. */
  lemma {:induction false} RequestsOrder(complex: string, courts: seq<string>, date: string, caseTypes: seq<string>,
                                         i: nat, j: nat)
    requires i < |courts| && j < |caseTypes|
    ensures i * |caseTypes| + j < |Requests(complex, courts, date, caseTypes)|
    ensures Requests(complex, courts, date, caseTypes)[i * |caseTypes| + j]
         == Request(complex, courts[i], date, caseTypes[j])
    decreases |courts|
  {
    var init := courts[..|courts| - 1];
    var m := |caseTypes|;
    RowLength(complex, courts[|courts| - 1], date, caseTypes);
    MoreRowsFit(i, j, |courts|, m);
    if i < |courts| - 1 {
      RequestsOrder(complex, init, date, caseTypes, i, j);
      MoreRowsFit(i, j, |courts| - 1, m);
    } else {
      assert i * m + j - (|courts| - 1) * m == j;
    }
  }

  /** Row `i` of the batch: the requests for court number `i` fill the
      positions from `i * |caseTypes|` on, one per case type. */
  lemma {:induction false} RowAt(complex: string, courts: seq<string>, date: string, caseTypes: seq<string>, i: nat)
    requires i < |courts|
    ensures i * |caseTypes| + |caseTypes| <= |Requests(complex, courts, date, caseTypes)|
    ensures forall j :: 0 <= j < |caseTypes| ==>
      Requests(complex, courts, date, caseTypes)[i * |caseTypes| + j] == Request(complex, courts[i], date, caseTypes[j])
  {
    var m := |caseTypes|;
    MulSucc(i, m);
    MulMono(i + 1, |courts|, m);
    forall j | 0 <= j < m
      ensures Requests(complex, courts, date, caseTypes)[i * m + j] == Request(complex, courts[i], date, caseTypes[j])
    {
      RequestsOrder(complex, courts, date, caseTypes, i, j);
    }
  }

  /** The example batch ["1","2"] x ["Civil","Criminal"] runs
      (1,Civil), (1,Criminal), (2,Civil), (2,Criminal). */
  lemma {:induction false} ExampleOrder(complex: string, date: string)
    ensures Requests(complex, ["1", "2"], date, ["Civil", "Criminal"])
         == [Request(complex, "1", date, "Civil"), Request(complex, "1", date, "Criminal"),
             Request(complex, "2", date, "Civil"), Request(complex, "2", date, "Criminal")]
  {
    var cs: seq<string> := ["1", "2"];
    var ts: seq<string> := ["Civil", "Criminal"];
    RowLength(complex, "1", date, ts);
    RowLength(complex, "2", date, ts);
    assert cs[..1] == ["1"];
    assert cs[..1][..0] == [];
    assert Requests(complex, cs[..1], date, ts) == Row(complex, "1", date, ts);
  }

  /** Within a batch, the scrapes of two court numbers for the same case
      type write the same PDF exactly when the court numbers clean to the
      same text; the later scrape then overwrites the earlier one's file. */
  lemma {:induction false} BatchOverwrites(complex: string, courts: seq<string>, date: string, caseTypes: seq<string>,
                                           i1: nat, i2: nat, j: nat)
    requires i1 < |courts| && i2 < |courts| && j < |caseTypes|
    ensures var rs := Requests(complex, courts, date, caseTypes);
      && i1 * |caseTypes| + j < |rs| && i2 * |caseTypes| + j < |rs|
      && (PdfOf(rs[i1 * |caseTypes| + j]) == PdfOf(rs[i2 * |caseTypes| + j])
          <==> CleanCourtNumber(courts[i1]) == CleanCourtNumber(courts[i2]))
  {
    RequestsOrder(complex, courts, date, caseTypes, i1, j);
    RequestsOrder(complex, courts, date, caseTypes, i2, j);
    PdfPathCollisions(courts[i1], courts[i2], caseTypes[j], date);
  }

  /** Every request is scraped once, in the given order, whatever its
      session does. */
  lemma {:induction false} TraceAttempts(rs: seq<Request>, total: nat, sessions: nat -> Session)
    ensures Attempted(Trace(rs, total, sessions)) == rs
    decreases |rs|
  {
    if |rs| > 0 {
      var init := rs[..|rs| - 1];
      TraceAttempts(init, total, sessions);
      StepAppended(Trace(init, total, sessions), rs[|rs| - 1], |rs| - 1, total, sessions(|rs| - 1));
      assert rs == init + [rs[|rs| - 1]];
    }
  }

  /** The tally counts exactly the sessions that ran to the end. */
  lemma {:induction false} TraceSuccesses(rs: seq<Request>, total: nat, sessions: nat -> Session)
    ensures Successes(Trace(rs, total, sessions)) == CountFinished(sessions, |rs|)
    decreases |rs|
  {
    if |rs| > 0 {
      var init := rs[..|rs| - 1];
      TraceSuccesses(init, total, sessions);
      StepAppended(Trace(init, total, sessions), rs[|rs| - 1], |rs| - 1, total, sessions(|rs| - 1));
    }
  }

  /** A pause follows every scrape except the last of the batch and one
      that raised. A run that stopped where it had to pauses one time fewer
      than it scraped. */
  lemma {:induction false} TracePauses(rs: seq<Request>, total: nat, sessions: nat -> Session)
    requires |rs| <= total && RanThrough(sessions, |rs| - 1)
    ensures Pauses(Trace(rs, total, sessions))
         == if |rs| > 0 && (|rs| == total || sessions(|rs| - 1).Escaped?) then |rs| - 1 else |rs|
    decreases |rs|
  {
    if |rs| > 0 {
      var init := rs[..|rs| - 1];
      TracePauses(init, total, sessions);
      StepAppended(Trace(init, total, sessions), rs[|rs| - 1], |rs| - 1, total, sessions(|rs| - 1));
    }
  }

  /** The shape of a batch trace: scrape `k` sits at position `2k`, a pause
      at every odd position, and nothing follows a scrape that ended the
      batch. So a pause always lies between two scrapes. */
  lemma {:induction false} TraceShape(rs: seq<Request>, total: nat, sessions: nat -> Session)
    requires |rs| <= total && RanThrough(sessions, |rs| - 1)
    ensures |Trace(rs, total, sessions)|
         == if |rs| > 0 && (|rs| == total || sessions(|rs| - 1).Escaped?) then 2 * |rs| - 1 else 2 * |rs|
    ensures forall k :: 0 <= k < |Trace(rs, total, sessions)| ==>
      Trace(rs, total, sessions)[k] == if k % 2 == 0 then Attempt(rs[k / 2], sessions(k / 2)) else Pause
    decreases |rs|
  {
    if |rs| > 0 {
      var n := |rs|;
      var init := rs[..n - 1];
      TraceShape(init, total, sessions);
      var t := Trace(rs, total, sessions);
      var t' := Trace(init, total, sessions);
      assert |t'| == 2 * (n - 1);
      forall k | 0 <= k < |t|
        ensures t[k] == if k % 2 == 0 then Attempt(rs[k / 2], sessions(k / 2)) else Pause
      {
        if k < |t'| {
          assert t[k] == t'[k];
          assert init[k / 2] == rs[k / 2];
        } else if k == 2 * (n - 1) {
          assert k / 2 == n - 1;
        }
      }
    }
  }

  /** The PDFs a run writes are those of the requests whose session wrote
      its file, and no others. */
  lemma {:induction false} TraceWrites(rs: seq<Request>, total: nat, sessions: nat -> Session)
    ensures forall k :: 0 <= k < |rs| && Exported(sessions(k)) ==>
      PdfOf(rs[k]) in Written(Trace(rs, total, sessions))
    ensures forall path :: path in Written(Trace(rs, total, sessions)) ==>
      exists k :: 0 <= k < |rs| && Exported(sessions(k)) && PdfOf(rs[k]) == path
  {
    WritesEvery(rs, total, sessions);
    WritesOnly(rs, total, sessions);
  }

  lemma {:induction false} WrittenSnoc(rs: seq<Request>, total: nat, sessions: nat -> Session)
    requires |rs| > 0
    ensures Written(Trace(rs, total, sessions))
         == Written(Trace(rs[..|rs| - 1], total, sessions))
            + (if Exported(sessions(|rs| - 1)) then [PdfOf(rs[|rs| - 1])] else [])
  {
    StepAppended(Trace(rs[..|rs| - 1], total, sessions), rs[|rs| - 1], |rs| - 1, total, sessions(|rs| - 1));
  }

  lemma {:induction false} WritesEvery(rs: seq<Request>, total: nat, sessions: nat -> Session)
    ensures forall k :: 0 <= k < |rs| && Exported(sessions(k)) ==>
      PdfOf(rs[k]) in Written(Trace(rs, total, sessions))
    decreases |rs|
  {
    if |rs| > 0 {
      var n := |rs|;
      var init := rs[..n - 1];
      WritesEvery(init, total, sessions);
      WrittenSnoc(rs, total, sessions);
      var w := Written(Trace(rs, total, sessions));
      var w' := Written(Trace(init, total, sessions));
      assert forall path :: path in w' ==> path in w;
      forall k | 0 <= k < n && Exported(sessions(k))
        ensures PdfOf(rs[k]) in w
      {
        if k < n - 1 {
          assert rs[k] == init[k];
          assert PdfOf(init[k]) in w';
        } else {
          assert w[|w| - 1] == PdfOf(rs[k]);
        }
      }
    }
  }

  lemma {:induction false} WritesOnly(rs: seq<Request>, total: nat, sessions: nat -> Session)
    ensures forall path :: path in Written(Trace(rs, total, sessions)) ==>
      exists k :: 0 <= k < |rs| && Exported(sessions(k)) && PdfOf(rs[k]) == path
    decreases |rs|
  {
    if |rs| > 0 {
      var n := |rs|;
      var init := rs[..n - 1];
      WritesOnly(init, total, sessions);
      WrittenSnoc(rs, total, sessions);
      var w' := Written(Trace(init, total, sessions));
      forall path | path in Written(Trace(rs, total, sessions))
        ensures exists k :: 0 <= k < n && Exported(sessions(k)) && PdfOf(rs[k]) == path
      {
        if path in w' {
          var k :| 0 <= k < n - 1 && Exported(sessions(k)) && PdfOf(init[k]) == path;
          assert rs[k] == init[k];
        } else {
          assert PdfOf(rs[n - 1]) == path;
        }
      }
    }
  }
}

=== FILE: config.dfy ===
/** The fixed configuration values the scraper and its front end read. */
module Config {

  /** Directory the PDFs are written to. */
  const OUTPUT_DIR: string := "outputs"

  /** Court complexes offered by the portal, each with the comma-separated
      site codes of its sub-courts. */
  const COURT_COMPLEXES: map<string, string> := map[
    "District Court, Gurugram" := "HRGR01,HRGR02,HRGR03",
    "Judicial Complex, Sohna" := "HRGRA0,HRGRA1",
    "Judicial Complex, Pataudi" := "HRGRB0,HRGRB1"
  ]

  /** The complex every scrape of the front end is run against. */
  const DEFAULT_COURT_COMPLEX: string := "District Court, Gurugram"

  /** The case types, in the order a batch visits them. */
  const CASE_TYPES: seq<string> := ["Civil", "Criminal"]
}

=== FILE: frontend.dfy ===
/**
 The interactive front end: the operator's answers to the prompts decide
 whether one scrape runs, a batch runs, or nothing runs. Every prompt answer is
 a parameter (`Answers`) and the clock is the parameter `today`.
 */
module Frontend {
  import opened Strings
  import Config
  import opened Scrape
  import Batch

  /** A calendar date as the clock reports it. */
  datatype Date = Date(day: int, month: int, year: int) {
    /** The range the formatter handles: day 1..31, month 1..12 and a
        four-digit year. */
    predicate Valid() {
      1 <= day <= 31 && 1 <= month <= 12 && 1000 <= year <= 9999
    }
  }

  function Digit(n: int): (c: char)
    requires 0 <= n <= 9
    ensures '0' <= c <= '9' && c as int - '0' as int == n
  {
    ('0' as int + n) as char
  }

  /** The decimal value of a string of digits, most significant first. */
  function DecimalValue(s: string): int
    decreases |s|
  {
    if |s| == 0 then 0
    else DecimalValue(s[..|s| - 1]) * 10 + (s[|s| - 1] as int - '0' as int)
  }

  /** `n` written with exactly `width` digits, padded with zeros. */
  function Padded(n: int, width: nat): (s: string)
    requires 0 <= n
    ensures |s| == width
    ensures forall i :: 0 <= i < width ==> '0' <= s[i] <= '9'
    decreases width
  {
    if width == 0 then []
    else Padded(n / 10, width - 1) + [Digit(n % 10)]
  }

  /** A padded number reads back as itself when it fits the width. */
  lemma {:induction false} PaddedValue(n: int, width: nat, bound: nat)
    requires 0 <= n < bound
    requires bound == Pow10(width)
    ensures DecimalValue(Padded(n, width)) == n
    decreases width
  {
    if width > 0 {
      var s := Padded(n, width);
      assert s[..|s| - 1] == Padded(n / 10, width - 1);
      PaddedValue(n / 10, width - 1, Pow10(width - 1));
    }
  }

  function Pow10(k: nat): (p: nat)
    ensures p >= 1
  {
    if k == 0 then 1 else 10 * Pow10(k - 1)
  }

  /** `strftime("%d/%m/%Y")`: two-digit day and month, four-digit year,
      separated by `/`; each field reads back as the date's own. */
  function FormatDate(d: Date): (s: string)
    requires d.Valid()
    ensures |s| == 10 && s[2] == '/' && s[5] == '/'
    ensures forall i :: 0 <= i < 10 && i != 2 && i != 5 ==> '0' <= s[i] <= '9'
    ensures DecimalValue(s[..2]) == d.day
    ensures DecimalValue(s[3..5]) == d.month
    ensures DecimalValue(s[6..]) == d.year
  {
    var dd := Padded(d.day, 2);
    var mm := Padded(d.month, 2);
    var yyyy := Padded(d.year, 4);
    PaddedValue(d.day, 2, 100);
    PaddedValue(d.month, 2, 100);
    PaddedValue(d.year, 4, 10000);
    var s := dd + "/" + mm + "/" + yyyy;
    assert s[..2] == dd && s[3..5] == mm && s[6..] == yyyy;
    s
  }

  /** `get_date_input`: the stripped answer, or today's date when the
      answer is blank. */
  function DateInput(answer: string, today: Date): (date: string)
    requires today.Valid()
    ensures AllSpace(answer) ==> date == FormatDate(today)
    ensures !AllSpace(answer) ==> date == Strip(answer)
    ensures |date| > 0 && Trimmed(date)
  {
    var entered := Strip(answer);
    StripEmptyIff(answer);
    if entered != [] then entered else FormatDate(today)
  }

  /** Case type of a single scrape: `1` is civil, every other answer
      criminal. */
  function SingleCaseType(choice: string): (caseType: string)
    ensures caseType in Config.CASE_TYPES
    ensures caseType == "Civil" <==> choice == "1"
  {
    if choice == "1" then "Civil" else "Criminal"
  }

  /** Case types of a batch: `1` civil only, `2` criminal only, any other
      answer both, in the configured order. */
  function BatchCaseTypes(choice: string): (caseTypes: seq<string>)
    ensures |caseTypes| >= 1
    ensures forall t :: t in caseTypes ==> t in Config.CASE_TYPES
    ensures caseTypes == ["Civil"] <==> choice == "1"
    ensures caseTypes == ["Criminal"] <==> choice == "2"
    ensures choice != "1" && choice != "2" ==> caseTypes == Config.CASE_TYPES
  {
    if choice == "1" then ["Civil"]
    else if choice == "2" then ["Criminal"]
    else Config.CASE_TYPES
  }

  /** `strip()` applied to every piece: as many pieces, none with
      surrounding whitespace, each the stripped original. */
  function StripAll(pieces: seq<string>): (stripped: seq<string>)
    ensures |stripped| == |pieces|
    ensures forall i :: 0 <= i < |pieces| ==> stripped[i] == Strip(pieces[i]) && Trimmed(stripped[i])
  {
    seq(|pieces|, i requires 0 <= i < |pieces| => Strip(pieces[i]))
  }

  /** A character of the stripped text is a character of the text. */
  lemma {:induction false} StripKeepsAbsent(s: string, c: char)
    requires c !in s
    ensures c !in Strip(s)
  {
    var l := StripLeft(s);
    assert c !in l by {
      assert l == s[|s| - |l|..];
    }
    assert c !in StripRight(l) by {
      assert StripRight(l) == l[..|StripRight(l)|];
    }
  }

  /** The batch court list: the stripped answer split at every comma, each
      piece stripped. Stripping the whole answer first changes nothing: the
      list is the answer's comma-separated pieces, each stripped. */
  function ParseCourtNumbers(answer: string): (courts: seq<string>)
    ensures courts == StripAll(Split(answer, ','))
    ensures |courts| == Count(Strip(answer), ',') + 1
    ensures forall i :: 0 <= i < |courts| ==> ',' !in courts[i] && Trimmed(courts[i])
    ensures Strip(answer) == [] ==> courts == [[]]
  {
    var pieces := Split(Strip(answer), ',');
    var courts := StripAll(pieces);
    forall i | 0 <= i < |courts|
      ensures ',' !in courts[i]
    {
      StripKeepsAbsent(pieces[i], ',');
    }
    SplitStripped(answer);
    courts
  }

  /** Whitespace around the whole line does not reach the stripped pieces. */
  lemma {:induction false} SplitStripped(answer: string)
    ensures StripAll(Split(answer, ',')) == StripAll(Split(Strip(answer), ','))
  {
    var p, q := StripParts(answer);
    SplitMargins(p, Strip(answer), q);
  }

  lemma {:induction false} SplitMargins(a: string, t: string, b: string)
    requires AllSpace(a) && AllSpace(b)
    ensures StripAll(Split(a + t + b, ',')) == StripAll(Split(t, ','))
  {
    var ps := Split(t, ',');
    assert ',' !in a && ',' !in b by {
      assert !IsSpace(',');
    }
    SplitFrame(t, a, b, ',');
    var framed := Frame(ps, a, b);
    forall k | 0 <= k < |ps|
      ensures Strip(framed[k]) == Strip(ps[k])
    {
      StripMargins(if k == 0 then a else [], ps[k], if k == |ps| - 1 then b else []);
    }
  }

  /** Typing court numbers separated by commas gives them back stripped, as
      long as none has a comma; numbers typed without surrounding
      whitespace come back as typed. */
  lemma {:induction false} CourtListRoundTrip(courts: seq<string>)
    requires |courts| >= 1
    requires forall i :: 0 <= i < |courts| ==> ',' !in courts[i]
    ensures ParseCourtNumbers(Join(courts, ',')) == StripAll(courts)
    ensures (forall i :: 0 <= i < |courts| ==> Trimmed(courts[i])) ==>
      ParseCourtNumbers(Join(courts, ',')) == courts
  {
    SplitJoin(courts, ',');
    if forall i :: 0 <= i < |courts| ==> Trimmed(courts[i]) {
      forall i | 0 <= i < |courts|
        ensures Strip(courts[i]) == courts[i]
      {
        StrippedIff(courts[i]);
      }
    }
  }

  /** An answer like " 1, 2 " lists court numbers "1" and "2": any two
      court numbers of one character, typed with spaces around them. */
  lemma {:induction false} ExampleCourtList(x: char, y: char)
    requires !IsSpace(x) && !IsSpace(y) && x != ',' && y != ','
    ensures ParseCourtNumbers([' ', x, ',', ' ', y, ' ']) == [[x], [y]]
  {
    var line := [' ', x, ',', ' ', y, ' '];
    ExampleSplit(x, y);
    ExampleStrip(x, y);
    assert ParseCourtNumbers(line) == StripAll(Split(line, ','));
  }

  lemma {:induction false} ExampleSplit(x: char, y: char)
    requires x != ',' && y != ','
    ensures Split([' ', x, ',', ' ', y, ' '], ',') == [[' ', x], [' ', y, ' ']]
  {
    var ps := [[' ', x], [' ', y, ' ']];
    assert Join(ps, ',') == [' ', x, ',', ' ', y, ' '] by {
      assert ps[1..] == [[' ', y, ' ']];
    }
    SplitJoin(ps, ',');
  }

  lemma {:induction false} ExampleStrip(x: char, y: char)
    requires !IsSpace(x) && !IsSpace(y)
    ensures StripAll([[' ', x], [' ', y, ' ']]) == [[x], [y]]
  {
    StripSpaceBefore(x);
    StripSpaceAround(y);
    var r := StripAll([[' ', x], [' ', y, ' ']]);
    assert r[0] == [x];
    assert r[1] == [y];
  }

  /** A character that is not whitespace, with one space before it,
      strips to itself. */
  lemma {:induction false} StripSpaceBefore(c: char)
    requires !IsSpace(c)
    ensures Strip([' ', c]) == [c]
  {
    assert [' '] + [c] + [] == [' ', c];
    StripUnique([' '], [c], []);
  }

  /** A character that is not whitespace, with one space on either side,
      strips to itself. */
  lemma {:induction false} StripSpaceAround(c: char)
    requires !IsSpace(c)
    ensures Strip([' ', c, ' ']) == [c]
  {
    assert [' '] + [c] + [' '] == [' ', c, ' '];
    StripUnique([' '], [c], [' ']);
  }

  /** The confirmation gate: the answer, stripped and lower-cased, must be
      exactly `yes`. It passes exactly the answers that spell y, e, s in any
      mix of upper and lower case, with any surrounding whitespace. */
  function Confirmed(answer: string): (ok: bool)
    ensures ok <==>
      var s := Strip(answer);
      |s| == 3 && (s[0] == 'y' || s[0] == 'Y') && (s[1] == 'e' || s[1] == 'E') && (s[2] == 's' || s[2] == 'S')
  {
    LowerYesIff(Strip(answer));
    Lower(Strip(answer)) == "yes"
  }

  /** A string lower-cases to `yes` exactly when it spells y, e, s, each
      letter in either case. */
  lemma {:induction false} LowerYesIff(s: string)
    ensures Lower(s) == "yes" <==>
      |s| == 3 && (s[0] == 'y' || s[0] == 'Y') && (s[1] == 'e' || s[1] == 'E') && (s[2] == 's' || s[2] == 'S')
  {
    var l := Lower(s);
    var yes := "yes";
    assert |yes| == 3 && yes[0] == 'y' && yes[1] == 'e' && yes[2] == 's';
    if |s| == 3 {
      LowerCharIs(s[0], 'y');
      LowerCharIs(s[1], 'e');
      LowerCharIs(s[2], 's');
      assert l == yes <==> l[0] == 'y' && l[1] == 'e' && l[2] == 's';
    }
  }

  lemma {:induction false} LowerCharIs(c: char, lower: char)
    requires 'a' <= lower <= 'z'
    ensures LowerChar(c) == lower <==> c == lower || c as int == lower as int - 32
  {
  }

  /** The operator's answers, one per prompt, as typed. */
  datatype Answers = Answers(
    menu: string,         // the mode prompt (1-3)
    courtNumber: string,  // single mode: the court number
    courtNumbers: string, // batch mode: comma-separated court numbers
    caseChoice: string,   // the case-type prompt
    date: string,         // the date prompt
    confirm: string       // batch mode: the yes/no prompt
  )

  /** What the front end decides to do. */
  datatype Plan =
    | SingleScrape(req: Request)
    | BatchScrape(complex: string, courts: seq<string>, date: string, caseTypes: seq<string>)
    | Cancelled
    | Goodbye
    | InvalidChoice

  /** The decision `main` takes from the operator's answers. */
  function Dispatch(a: Answers, today: Date): (p: Plan)
    requires today.Valid()
    ensures p.SingleScrape? <==> Strip(a.menu) == "1"
    ensures p.BatchScrape? <==> Strip(a.menu) == "2" && Confirmed(a.confirm)
    ensures p.Cancelled? <==> Strip(a.menu) == "2" && !Confirmed(a.confirm)
    ensures p.Goodbye? <==> Strip(a.menu) == "3"
    ensures p.InvalidChoice? <==> Strip(a.menu) != "1" && Strip(a.menu) != "2" && Strip(a.menu) != "3"
    ensures p.SingleScrape? ==>
      p.req == Request(Config.DEFAULT_COURT_COMPLEX, Strip(a.courtNumber), DateInput(a.date, today),
                       SingleCaseType(Strip(a.caseChoice)))
    ensures p.BatchScrape? ==>
      && p.complex == Config.DEFAULT_COURT_COMPLEX
      && p.courts == ParseCourtNumbers(a.courtNumbers)
      && p.date == DateInput(a.date, today)
      && p.caseTypes == BatchCaseTypes(Strip(a.caseChoice))
  {
    var choice := Strip(a.menu);
    if choice == "1" then
      SingleScrape(Request(Config.DEFAULT_COURT_COMPLEX, Strip(a.courtNumber), DateInput(a.date, today),
                           SingleCaseType(Strip(a.caseChoice))))
    else if choice == "2" then
      var courts := ParseCourtNumbers(a.courtNumbers);
      var caseTypes := BatchCaseTypes(Strip(a.caseChoice));
      var date := DateInput(a.date, today);
      if Confirmed(a.confirm) then BatchScrape(Config.DEFAULT_COURT_COMPLEX, courts, date, caseTypes)
      else Cancelled
    else if choice == "3" then Goodbye
    else InvalidChoice
  }

  /** The scrapes a plan asks for, in order. */
  function Scrapes(p: Plan): seq<Request>
  {
    match p
    case SingleScrape(req) => [req]
    case BatchScrape(complex, courts, date, caseTypes) => Batch.Requests(complex, courts, date, caseTypes)
    case _ => []
  }

  /** Something is scraped exactly when the operator picks a single scrape,
      or picks a batch and confirms it. */
  lemma {:induction false} ScrapesOnlyWhenChosen(a: Answers, today: Date)
    requires today.Valid()
    ensures |Scrapes(Dispatch(a, today))| > 0 <==>
      Strip(a.menu) == "1" || (Strip(a.menu) == "2" && Confirmed(a.confirm))
  {
    var p := Dispatch(a, today);
    if p.BatchScrape? {
      Batch.MulMono(1, |p.courts|, |p.caseTypes|);
    }
  }

  /** Carrying out a plan: one scrape for a single scrape, the batch for a
      confirmed batch, nothing otherwise. Each browser session ends as
      `sessions` says for its position. The scrapes run in order and stop
      after the first one that raises; `ran` of them start. */
  method Execute(p: Plan, sessions: nat -> Session) returns (trace: seq<Batch.Event>, ran: nat)
    ensures Batch.StopsAt(sessions, |Scrapes(p)|, ran)
    ensures trace == Batch.Trace(Scrapes(p)[..ran], |Scrapes(p)|, sessions)
    ensures Batch.Attempted(trace) == Scrapes(p)[..ran]
    ensures trace == [] <==> Scrapes(p) == []
  {
    match p {
      case SingleScrape(req) =>
        trace := [Batch.Attempt(req, sessions(0))];
        ran := 1;
        assert [req][..1] == [req];
        assert [req][..0] == [];
      case BatchScrape(complex, courts, date, caseTypes) =>
        var successful, total;
        trace, ran, successful, total := Batch.RunBatch(complex, courts, date, caseTypes, sessions);
      case _ =>
        trace := [];
        ran := 0;
    }
    Batch.TraceAttempts(Scrapes(p)[..ran], |Scrapes(p)|, sessions);
  }

  /** `main`, with the prompts answered by `a`, the clock reading `today`
      and each browser session ending as `sessions` says: the plan of
      `Dispatch`, carried out by `Execute`. An exception that ends the run
      is caught and printed by the script's entry point. */
  method RunMain(a: Answers, today: Date, sessions: nat -> Session) returns (trace: seq<Batch.Event>)
    requires today.Valid()
    ensures trace == [] <==> !(Strip(a.menu) == "1" || (Strip(a.menu) == "2" && Confirmed(a.confirm)))
    ensures Batch.Attempted(trace) <= Scrapes(Dispatch(a, today))
  {
    ScrapesOnlyWhenChosen(a, today);
    var ran;
    trace, ran := Execute(Dispatch(a, today), sessions);
  }

}

=== FILE: scrape.dfy ===
/**
 One scrape of one cause list: the request it is given and the PDF file name
 it derives from the request when the page is saved.
 */
module Scrape {
  import opened Strings
  import Config

  /** The parameters of one scrape. Every field is the operator's text as
      handed over by the front end. */
  datatype Request = Request(complex: string, courtNumber: string, date: string, caseType: string)

  /** How the browser session of one scrape ends. The operator fills in
      the portal's form by hand, so any scrape may end in any of these ways,
      and two scrapes of the same request may end differently.
      `exported` says whether `page.pdf` had already written the file when
      the exception came. */
  datatype Session =
      /** Everything ran and the browser closed: the scrape returns `True`. */
    | Finished
      /** An exception inside the `try` block (navigation, the form, the
          screenshot, the export, or the messages after it) was caught:
          the scrape returns `False`. */
    | Caught(exported: bool)
      /** An exception that the `try` block does not catch propagates to
          the caller: one while launching the browser or opening the page,
          which precede the `try`; one while closing the browser in the
          `finally` block; or one that is not an `Exception`, such as a
          `KeyboardInterrupt` at the ENTER prompt or a cancellation at an
          `await`, which passes through the `finally`. */
    | Escaped(exported: bool)

  /** What the caller of one scrape sees: a returned flag, or an exception. */
  datatype ScrapeResult = Returned(success: bool) | Raised

  /** The court number made file-name friendly: spaces become `_`, dots and
      commas are dropped (three `str.replace` passes, in that order). */
  function CleanCourtNumber(courtNumber: string): (r: string)
    ensures ' ' !in r && '.' !in r && ',' !in r
    ensures |r| == |courtNumber| - Count(courtNumber, '.') - Count(courtNumber, ',')
  {
    var spaced := ReplaceChar(courtNumber, ' ', '_');
    var noDots := DeleteChar(spaced, '.');
    var r := DeleteChar(noDots, ',');
    CountReplaced(courtNumber, ' ', '_', '.');
    CountReplaced(courtNumber, ' ', '_', ',');
    CountDeleted(spaced, '.', ',');
    CountZero(spaced, ' ');
    CountDeleted(spaced, '.', ' ');
    CountDeleted(noDots, ',', ' ');
    CountZero(r, ' ');
    CountZero(noDots, '.');
    CountDeleted(noDots, ',', '.');
    CountZero(r, '.');
    r
  }

  /** The date made file-name friendly: every `/` becomes `-`. */
  function CleanDate(date: string): (r: string)
    ensures '/' !in r
    ensures |r| == |date|
    ensures forall i :: 0 <= i < |date| ==> r[i] == (if date[i] == '/' then '-' else date[i])
  {
    ReplaceChar(date, '/', '-')
  }

  const NAME_PREFIX: string := "CauseList_Court"
  const EXTENSION: string := ".pdf"

  /** File name of the saved cause list, without the directory. */
  function FileName(courtNumber: string, caseType: string, date: string): (name: string)
    ensures NAME_PREFIX <= name
    ensures |name| == |NAME_PREFIX| + |CleanCourtNumber(courtNumber)| + |caseType| + |date| + 2 + |EXTENSION|
    ensures name[|name| - |EXTENSION|..] == EXTENSION
  {
    NAME_PREFIX + CleanCourtNumber(courtNumber) + "_" + caseType + "_" + CleanDate(date) + EXTENSION
  }

  /** Where the saved cause list is written. */
  function PdfPath(courtNumber: string, caseType: string, date: string): (path: string)
    ensures Config.OUTPUT_DIR + "/" + NAME_PREFIX <= path
    ensures path[|path| - |EXTENSION|..] == EXTENSION
  {
    var name := FileName(courtNumber, caseType, date);
    assert (Config.OUTPUT_DIR + "/" + name)[|Config.OUTPUT_DIR| + 1..] == name;
    Config.OUTPUT_DIR + "/" + name
  }

  /** The PDF a request is saved to. */
  function PdfOf(req: Request): string
  {
    PdfPath(req.courtNumber, req.caseType, req.date)
  }

  /** One scrape, as its caller sees it. */
  function ScrapeAndSave(req: Request, s: Session): ScrapeResult
  {
    match s
    case Finished => Returned(true)
    case Caught(_) => Returned(false)
    case Escaped(_) => Raised
  }

  /** Whether the session wrote the PDF (at `PdfOf` of its request). */
  predicate Exported(s: Session)
  {
    s.Finished? || s.exported
  }

  /** Character-at-a-time reference for court-number cleaning. */
  function CleanOne(c: char): string
  {
    if c == '.' || c == ',' then [] else if c == ' ' then ['_'] else [c]
  }

  function CleanReference(s: string): string
  {
    if |s| == 0 then [] else CleanOne(s[0]) + CleanReference(s[1..])
  }

  lemma {:induction false} DeleteCons(x: char, rest: string, c: char)
    ensures DeleteChar([x] + rest, c) == (if x == c then [] else [x]) + DeleteChar(rest, c)
  {
    assert ([x] + rest)[1..] == rest;
  }

  /** The three replace passes do the same as one pass that drops `.` and
      `,` and turns each space into `_`, keeping everything else in order. */
  lemma {:induction false} CleanCourtNumberIsOnePass(s: string)
    ensures CleanCourtNumber(s) == CleanReference(s)
  {
    if |s| > 0 {
      CleanCourtNumberIsOnePass(s[1..]);
      var x := if s[0] == ' ' then '_' else s[0];
      var spaced := ReplaceChar(s, ' ', '_');
      assert spaced == [x] + ReplaceChar(s[1..], ' ', '_');
      DeleteCons(x, ReplaceChar(s[1..], ' ', '_'), '.');
      var noDots := DeleteChar(ReplaceChar(s[1..], ' ', '_'), '.');
      if x == '.' {
        assert CleanCourtNumber(s) == DeleteChar(noDots, ',');
      } else {
        DeleteCons(x, noDots, ',');
      }
    }
  }

  /** Cleaning an already cleaned court number changes nothing. */
  lemma {:induction false} CleanCourtNumberIdempotent(s: string)
    ensures CleanCourtNumber(CleanCourtNumber(s)) == CleanCourtNumber(s)
  {
    var c := CleanCourtNumber(s);
    ReplaceAbsent(c, ' ', '_');
    DeleteAbsent(c, '.');
    DeleteAbsent(c, ',');
  }

  /** Cleaning keeps every character other than space, `.` and `,`: in
      particular a `/` in the court number survives. */
  lemma {:induction false} CleanCourtNumberKeeps(s: string, x: char)
    requires x != ' ' && x != '_' && x != '.' && x != ','
    ensures Count(CleanCourtNumber(s), x) == Count(s, x)
  {
    var spaced := ReplaceChar(s, ' ', '_');
    CountReplaced(s, ' ', '_', x);
    CountDeleted(spaced, '.', x);
    CountDeleted(DeleteChar(spaced, '.'), ',', x);
  }

  /** The file name holds a `/` exactly when the court number or the case
      type holds one; the date cannot contribute one. A `/` in the court
      number puts the PDF in a subdirectory of the output directory. */
  lemma {:induction false} FileNameSlashes(courtNumber: string, caseType: string, date: string)
    ensures Count(FileName(courtNumber, caseType, date), '/') == Count(courtNumber, '/') + Count(caseType, '/')
    ensures '/' in FileName(courtNumber, caseType, date) <==> '/' in courtNumber || '/' in caseType
  {
    var cc := CleanCourtNumber(courtNumber);
    var dc := CleanDate(date);
    CleanCourtNumberKeeps(courtNumber, '/');
    CountZero(dc, '/');
    assert FileName(courtNumber, caseType, date) == NAME_PREFIX + cc + "_" + caseType + "_" + dc + EXTENSION;
    CountFileName(cc, caseType, dc, '/');
    CountZero(FileName(courtNumber, caseType, date), '/');
    CountZero(courtNumber, '/');
    CountZero(caseType, '/');
  }

  /** With a case type free of `/`, no `/`-separated part of the file name
      is `.` or `..`: the first part starts with `CauseList_Court`, the last
      ends with `.pdf`, and the parts between come from the cleaned court
      number, which holds no `.`. So, with `/` as the only path separator,
      the PDF always lands inside the output directory, although in a
      subdirectory of it when the court number holds a `/`. A `\` is not
      treated as a separator: the date keeps its `.` and `\`. */
  lemma {:induction false} FileNameStaysInside(courtNumber: string, caseType: string, date: string)
    requires '/' !in caseType
    ensures forall i :: 0 <= i < |Split(FileName(courtNumber, caseType, date), '/')| ==>
      Split(FileName(courtNumber, caseType, date), '/')[i] != "." &&
      Split(FileName(courtNumber, caseType, date), '/')[i] != ".."
  {
    var cc := CleanCourtNumber(courtNumber);
    var post := "_" + caseType + "_" + CleanDate(date) + EXTENSION;
    FileNameSplits(courtNumber, caseType, date);
    assert '/' !in post;
    SplitFrame(cc, NAME_PREFIX, post, '/');
    SplitKeepsAbsent(cc, '/', '.');
    ProperParts(Split(cc, '/'), NAME_PREFIX, post);
  }

  /** Pieces without `.`, framed by a long enough prefix and suffix, are
      none of them `.` or `..`. */
  lemma {:induction false} ProperParts(ps: seq<string>, pre: string, post: string)
    requires |ps| >= 1 && |pre| > 2 && |post| > 2
    requires forall i :: 0 <= i < |ps| ==> '.' !in ps[i]
    ensures forall i :: 0 <= i < |ps| ==> Frame(ps, pre, post)[i] != "." && Frame(ps, pre, post)[i] != ".."
  {
    var parts := Frame(ps, pre, post);
    forall i | 0 <= i < |ps|
      ensures parts[i] != "." && parts[i] != ".."
    {
      assert "."[0] == '.' && ".."[0] == '.';
      if i == 0 {
        assert |parts[i]| >= |pre|;
      } else if i == |ps| - 1 {
        assert |parts[i]| >= |post|;
      } else {
        assert parts[i] == ps[i];
      }
    }
  }

  lemma {:induction false} FileNameSplits(courtNumber: string, caseType: string, date: string)
    ensures FileName(courtNumber, caseType, date)
         == NAME_PREFIX + CleanCourtNumber(courtNumber) + ("_" + caseType + "_" + CleanDate(date) + EXTENSION)
  {
  }

  /** Occurrences of a character that the fixed parts of a file name do not
      hold come only from the court, case-type and date parts. */
  lemma {:induction false} CountFileName(cc: string, caseType: string, dc: string, x: char)
    requires x !in NAME_PREFIX && x != '_' && x !in EXTENSION
    ensures Count(NAME_PREFIX + cc + "_" + caseType + "_" + dc + EXTENSION, x)
         == Count(cc, x) + Count(caseType, x) + Count(dc, x)
  {
    var p1 := NAME_PREFIX + cc;
    var p2 := p1 + "_";
    var p3 := p2 + caseType;
    var p4 := p3 + "_";
    var p5 := p4 + dc;
    CountZero(NAME_PREFIX, x);
    CountZero("_", x);
    CountZero(EXTENSION, x);
    CountConcat(NAME_PREFIX, cc, x);
    CountConcat(p1, "_", x);
    CountConcat(p2, caseType, x);
    CountConcat(p3, "_", x);
    CountConcat(p4, dc, x);
    CountConcat(p5, EXTENSION, x);
  }

  /** For one case type and date, two court numbers share a PDF path exactly
      when they clean to the same text (so `"1."` and `"1"` overwrite each
      other's file). */
  lemma {:induction false} PdfPathCollisions(c1: string, c2: string, caseType: string, date: string)
    ensures PdfPath(c1, caseType, date) == PdfPath(c2, caseType, date)
        <==> CleanCourtNumber(c1) == CleanCourtNumber(c2)
  {
    var pre := Config.OUTPUT_DIR + "/" + NAME_PREFIX;
    var post := "_" + caseType + "_" + CleanDate(date) + EXTENSION;
    var a := CleanCourtNumber(c1);
    var b := CleanCourtNumber(c2);
    PdfPathSplits(c1, caseType, date);
    PdfPathSplits(c2, caseType, date);
    if pre + a + post == pre + b + post {
      SameFrame(pre, a, b, post);
    }
  }

  lemma {:induction false} PdfPathSplits(courtNumber: string, caseType: string, date: string)
    ensures PdfPath(courtNumber, caseType, date)
         == (Config.OUTPUT_DIR + "/" + NAME_PREFIX) + CleanCourtNumber(courtNumber)
            + ("_" + caseType + "_" + CleanDate(date) + EXTENSION)
  {
    var cc := CleanCourtNumber(courtNumber);
    var dc := CleanDate(date);
    assert FileName(courtNumber, caseType, date) == NAME_PREFIX + cc + "_" + caseType + "_" + dc + EXTENSION;
  }

  lemma {:induction false} SameFrame(pre: string, a: string, b: string, post: string)
    requires pre + a + post == pre + b + post
    ensures a == b
  {
    assert |a| == |b|;
    assert a == (pre + a + post)[|pre|..|pre| + |a|];
  }

  /** Court numbers `1.` and `1` clean to the same text, so their cause
      lists for one case type and date overwrite each other. */
  lemma {:induction false} ExampleCollision()
    ensures PdfPath("1.", "Civil", "15/03/2025") == PdfPath("1", "Civil", "15/03/2025")
  {
    assert CleanCourtNumber("1.") == "1" by {
      assert ReplaceChar("1.", ' ', '_') == "1.";
      assert DeleteChar("1.", '.') == "1";
      DeleteAbsent("1", ',');
    }
    assert CleanCourtNumber("1") == "1" by {
      ReplaceAbsent("1", ' ', '_');
      DeleteAbsent("1", '.');
      DeleteAbsent("1", ',');
    }
    PdfPathCollisions("1.", "1", "Civil", "15/03/2025");
  }
}

=== FILE: strings.dfy ===
/**
 The handful of Python `str` operations the scraper and its front end rely on:
 `strip()`, `lower()`, single-character `replace`, and `split(',')`.
 Only the ASCII range is modelled: whitespace is what `str.isspace` accepts
 below 128, and case folding maps `A`..`Z` to `a`..`z` and leaves every other
 character alone.
 */
module Strings {

  /** ASCII whitespace as Python's `str.isspace` sees it: tab, line feed,
      vertical tab, form feed, carriage return, the four information
      separators 0x1C..0x1F, and space. */
  predicate IsSpace(c: char) {
    c == ' ' || 9 <= c as int <= 13 || 28 <= c as int <= 31
  }

  /** Whitespace only (vacuously so when empty). */
  predicate AllSpace(s: string) {
    forall k :: 0 <= k < |s| ==> IsSpace(s[k])
  }

  /** Whitespace only from position `lo` up to, not including, `hi`. */
  predicate SpaceBetween(s: string, lo: int, hi: int) {
    forall k :: lo <= k < hi && 0 <= k < |s| ==> IsSpace(s[k])
  }

  /** No whitespace at either end. */
  predicate Trimmed(s: string) {
    |s| == 0 || (!IsSpace(s[0]) && !IsSpace(s[|s| - 1]))
  }

  /** Number of occurrences of `c` in `s` (Python's `s.count(c)`). */
  function Count(s: string, c: char): (n: nat)
    ensures n <= |s|
  {
    if |s| == 0 then 0
    else (if s[0] == c then 1 else 0) + Count(s[1..], c)
  }

  /** A character is absent exactly when it occurs zero times. */
  lemma {:induction false} CountZero(s: string, c: char)
    ensures Count(s, c) == 0 <==> c !in s
  {
    if |s| > 0 {
      CountZero(s[1..], c);
      assert s == [s[0]] + s[1..];
    }
  }

  lemma {:induction false} CountConcat(a: string, b: string, c: char)
    ensures Count(a + b, c) == Count(a, c) + Count(b, c)
  {
    if |a| == 0 {
      assert a + b == b;
    } else {
      assert (a + b)[1..] == a[1..] + b;
      CountConcat(a[1..], b, c);
    }
  }

  /** `s.replace(a, b)` for one-character `a` and `b`: every occurrence of
      `a` becomes `b`, everything else stays where it was. */
  function ReplaceChar(s: string, a: char, b: char): (r: string)
    ensures |r| == |s|
    ensures forall i :: 0 <= i < |s| ==> r[i] == (if s[i] == a then b else s[i])
  {
    if |s| == 0 then []
    else [if s[0] == a then b else s[0]] + ReplaceChar(s[1..], a, b)
  }

  /** `s.replace(c, '')`: every occurrence of `c` is dropped and the other
      characters keep their order. */
  function DeleteChar(s: string, c: char): (r: string)
    ensures c !in r
    ensures |r| == |s| - Count(s, c)
  {
    if |s| == 0 then []
    else
      var rest := DeleteChar(s[1..], c);
      if s[0] == c then rest else [s[0]] + rest
  }

  /** `replace(c, '')` works piece by piece: deleting from a concatenation
      deletes from each part and keeps the parts in order. */
  lemma {:induction false} DeleteConcat(a: string, b: string, c: char)
    ensures DeleteChar(a + b, c) == DeleteChar(a, c) + DeleteChar(b, c)
    decreases |a|
  {
    if |a| == 0 {
      assert a + b == b;
    } else {
      assert (a + b)[0] == a[0];
      assert (a + b)[1..] == a[1..] + b;
      DeleteConcat(a[1..], b, c);
    }
  }

  /** On one character, `replace(c, '')` drops it iff it is `c`. Together
      with `DeleteConcat` this fixes the result: the characters other than
      `c`, in their original order. */
  lemma {:induction false} DeleteOne(x: char, c: char)
    ensures DeleteChar([x], c) == if x == c then [] else [x]
  {
    assert [x][1..] == [];
  }

  /** Deleting `c` leaves the number of every other character alone. */
  lemma {:induction false} CountDeleted(s: string, c: char, x: char)
    requires x != c
    ensures Count(DeleteChar(s, c), x) == Count(s, x)
  {
    if |s| > 0 {
      CountDeleted(s[1..], c, x);
      var rest := DeleteChar(s[1..], c);
      if s[0] != c {
        assert ([s[0]] + rest)[1..] == rest;
      }
    }
  }

  lemma {:induction false} CountReplaced(s: string, a: char, b: char, x: char)
    requires x != a && x != b
    ensures Count(ReplaceChar(s, a, b), x) == Count(s, x)
  {
    if |s| > 0 {
      var r := ReplaceChar(s, a, b);
      assert r[1..] == ReplaceChar(s[1..], a, b);
      CountReplaced(s[1..], a, b, x);
    }
  }

  lemma {:induction false} ReplaceAbsent(s: string, a: char, b: char)
    requires a !in s
    ensures ReplaceChar(s, a, b) == s
  {
    if |s| > 0 {
      assert s[0] != a;
      assert a !in s[1..];
      ReplaceAbsent(s[1..], a, b);
      assert s == [s[0]] + s[1..];
    }
  }

  lemma {:induction false} DeleteAbsent(s: string, c: char)
    requires c !in s
    ensures DeleteChar(s, c) == s
  {
    if |s| > 0 {
      assert s[0] != c;
      assert c !in s[1..];
      DeleteAbsent(s[1..], c);
      assert s == [s[0]] + s[1..];
    }
  }

  /** Python's `lower()` on one character, restricted to ASCII letters. */
  function LowerChar(c: char): (l: char)
    ensures !('A' <= c <= 'Z') ==> l == c
    ensures 'A' <= c <= 'Z' ==> 'a' <= l <= 'z' && l as int - c as int == 32
  {
    if 'A' <= c <= 'Z' then (c as int + 32) as char else c
  }

  /** Python's `s.lower()` with ASCII case folding only. */
  function Lower(s: string): (r: string)
    ensures |r| == |s|
    ensures forall i :: 0 <= i < |s| ==> r[i] == LowerChar(s[i])
  {
    if |s| == 0 then [] else [LowerChar(s[0])] + Lower(s[1..])
  }

  /** Leading whitespace removed (Python's `lstrip()`). */
  function StripLeft(s: string): (r: string)
    ensures |r| <= |s| && r == s[|s| - |r|..]
    ensures SpaceBetween(s, 0, |s| - |r|)
    ensures |r| > 0 ==> !IsSpace(r[0])
  {
    if |s| > 0 && IsSpace(s[0]) then StripLeft(s[1..]) else s
  }

  /** Trailing whitespace removed (Python's `rstrip()`). */
  function StripRight(s: string): (r: string)
    ensures |r| <= |s| && r == s[..|r|]
    ensures SpaceBetween(s, |r|, |s|)
    ensures |r| > 0 ==> !IsSpace(r[|r| - 1])
  {
    if |s| > 0 && IsSpace(s[|s| - 1]) then StripRight(s[..|s| - 1]) else s
  }

  /** Python's `s.strip()`: leading whitespace removed, then trailing
      whitespace. */
  function Strip(s: string): (r: string)
    ensures |r| <= |s|
    ensures Trimmed(r)
  {
    StripRight(StripLeft(s))
  }

  /** What `strip()` keeps is an infix of `s`, starting where the leading
      whitespace ends, with only whitespace after it. */
  lemma {:induction false} StripInfix(s: string)
    ensures var i := |s| - |StripLeft(s)|;
      var r := Strip(s);
      && i + |r| <= |s|
      && (forall k :: 0 <= k < |r| ==> r[k] == s[i + k])
      && SpaceBetween(s, 0, i) && SpaceBetween(s, i + |r|, |s|)
  {
    var l := StripLeft(s);
    var i := |s| - |l|;
    var r := Strip(s);
    assert r == StripRight(l);
    forall k | i + |r| <= k < |s|
      ensures IsSpace(s[k])
    {
      assert s[k] == l[k - i];
    }
  }

  /** A string is left alone by `strip()` exactly when it has no whitespace
      at either end. */
  lemma {:induction false} StrippedIff(s: string)
    ensures Strip(s) == s <==> Trimmed(s)
  {
    if Trimmed(s) && |s| > 0 {
      assert StripLeft(s) == s;
      assert StripRight(s) == s;
    }
  }

  /** `strip()` is idempotent. */
  lemma {:induction false} StripIdempotent(s: string)
    ensures Strip(Strip(s)) == Strip(s)
  {
    StrippedIff(Strip(s));
  }

  /** The result of `strip()` is empty exactly when the input is all
      whitespace. */
  lemma {:induction false} StripEmptyIff(s: string)
    ensures Strip(s) == [] <==> AllSpace(s)
  {
    StripInfix(s);
  }

  /** A whitespace run followed by text that does not start with whitespace
      loses exactly the run to `lstrip()`. */
  lemma {:induction false} StripLeftUnique(p: string, y: string)
    requires AllSpace(p)
    requires |y| == 0 || !IsSpace(y[0])
    ensures StripLeft(p + y) == y
  {
    var s := p + y;
    var k := |s| - |StripLeft(s)|;
    assert forall i :: 0 <= i < |p| ==> s[i] == p[i];
    assert |y| > 0 ==> s[|p|] == y[0];
    assert k == |p|;
    assert s[|p|..] == y;
  }

  /** Text that does not end in whitespace followed by a whitespace run
      loses exactly the run to `rstrip()`. */
  lemma {:induction false} StripRightUnique(y: string, q: string)
    requires AllSpace(q)
    requires |y| == 0 || !IsSpace(y[|y| - 1])
    ensures StripRight(y + q) == y
  {
    var s := y + q;
    var k := |StripRight(s)|;
    assert forall i :: |y| <= i < |s| ==> s[i] == q[i - |y|];
    assert |y| > 0 ==> s[|y| - 1] == y[|y| - 1];
    assert k == |y|;
    assert s[..|y|] == y;
  }

  /** `strip()` is determined by its result: whatever sits between two
      whitespace runs and has no whitespace at either end is what `strip()`
      returns. */
  lemma {:induction false} StripUnique(p: string, r: string, q: string)
    requires AllSpace(p) && AllSpace(q) && Trimmed(r)
    ensures Strip(p + r + q) == r
  {
    if |r| > 0 {
      assert p + r + q == p + (r + q);
      StripLeftUnique(p, r + q);
      StripRightUnique(r, q);
    } else {
      assert p + r + q == p + q;
      StripEmptyIff(p + q);
    }
  }

  lemma {:induction false} AllSpaceConcat(a: string, b: string)
    requires AllSpace(a) && AllSpace(b)
    ensures AllSpace(a + b)
  {
    assert forall k :: |a| <= k < |a + b| ==> (a + b)[k] == b[k - |a|];
  }

  /** Whitespace added at either end does not change what `strip()`
      returns. */
  lemma {:induction false} StripMargins(a: string, x: string, b: string)
    requires AllSpace(a) && AllSpace(b)
    ensures Strip(a + x + b) == Strip(x)
  {
    var p, q := StripParts(x);
    var r := Strip(x);
    AllSpaceConcat(a, p);
    AllSpaceConcat(q, b);
    Regroup(a, p, r, q, b);
    StripUnique(a + p, r, q + b);
  }

  /** A string is its leading whitespace, what `strip()` keeps, and its
      trailing whitespace. */
  lemma {:induction false} StripParts(x: string) returns (p: string, q: string)
    ensures x == p + Strip(x) + q
    ensures AllSpace(p) && AllSpace(q)
  {
    var l := StripLeft(x);
    var r := Strip(x);
    assert r == StripRight(l);
    p, q := Parts(x, l, r);
  }

  /** A string cut at the front and again at the back into three parts. */
  lemma {:induction false} Parts(x: string, l: string, r: string) returns (p: string, q: string)
    requires |l| <= |x| && l == x[|x| - |l|..] && SpaceBetween(x, 0, |x| - |l|)
    requires |r| <= |l| && r == l[..|r|] && SpaceBetween(l, |r|, |l|)
    ensures x == p + r + q
    ensures AllSpace(p) && AllSpace(q)
  {
    p := x[..|x| - |l|];
    q := l[|r|..];
    SpacePrefix(x, |x| - |l|);
    SpaceSuffix(l, |r|);
    assert x == p + l;
    assert l == r + q;
  }

  lemma {:induction false} SpacePrefix(x: string, i: int)
    requires 0 <= i <= |x| && SpaceBetween(x, 0, i)
    ensures AllSpace(x[..i])
  {
    assert forall k :: 0 <= k < i ==> x[..i][k] == x[k];
  }

  lemma {:induction false} SpaceSuffix(x: string, i: int)
    requires 0 <= i <= |x| && SpaceBetween(x, i, |x|)
    ensures AllSpace(x[i..])
  {
    assert forall k :: 0 <= k < |x| - i ==> x[i..][k] == x[i + k];
  }

  lemma {:induction false} Regroup(a: string, p: string, r: string, q: string, b: string)
    ensures a + (p + r + q) + b == (a + p) + r + (q + b)
  {
  }

  /** Python's `s.split(sep)` for a one-character separator: the maximal
      separator-free pieces, in order. The empty string splits into one
      empty piece. */
  function Split(s: string, sep: char): (pieces: seq<string>)
    ensures |pieces| == Count(s, sep) + 1
    ensures forall i :: 0 <= i < |pieces| ==> sep !in pieces[i]
  {
    if |s| == 0 then [[]]
    else
      var rest := Split(s[1..], sep);
      if s[0] == sep then [[]] + rest
      else
        assert rest[0] in rest;
        [[s[0]] + rest[0]] + rest[1..]
  }

  /** Python's `sep.join(pieces)`. */
  function Join(pieces: seq<string>, sep: char): string
  {
    if |pieces| == 0 then []
    else if |pieces| == 1 then pieces[0]
    else pieces[0] + [sep] + Join(pieces[1..], sep)
  }

  /** The pieces with `a` glued to the front of the first and `b` to the
      end of the last. */
  function Frame(ps: seq<string>, a: string, b: string): (framed: seq<string>)
    requires |ps| >= 1
    ensures |framed| == |ps|
    ensures forall k :: 0 <= k < |ps| ==>
      framed[k] == (if k == 0 then a else []) + ps[k] + (if k == |ps| - 1 then b else [])
  {
    seq(|ps|, k requires 0 <= k < |ps| =>
      (if k == 0 then a else []) + ps[k] + (if k == |ps| - 1 then b else []))
  }

  lemma {:induction false} JoinFrame(ps: seq<string>, a: string, b: string, sep: char)
    requires |ps| >= 1
    ensures Join(Frame(ps, a, b), sep) == a + Join(ps, sep) + b
    decreases |ps|
  {
    var f := Frame(ps, a, b);
    if |ps| == 1 {
      assert f[0] == a + ps[0] + b;
    } else {
      var tail := Frame(ps[1..], [], b);
      JoinFrame(ps[1..], [], b, sep);
      assert f[1..] == tail;
      assert Join(f, sep) == f[0] + [sep] + Join(tail, sep);
      assert [] + Join(ps[1..], sep) + b == Join(ps[1..], sep) + b;
      assert f[0] == a + ps[0];
    }
  }

  /** A character absent from a string is absent from each of its pieces. */
  lemma {:induction false} SplitKeepsAbsent(s: string, sep: char, c: char)
    requires c !in s
    ensures forall i :: 0 <= i < |Split(s, sep)| ==> c !in Split(s, sep)[i]
  {
    if |s| > 0 {
      assert c !in s[1..];
      SplitKeepsAbsent(s[1..], sep, c);
      var rest := Split(s[1..], sep);
      if s[0] != sep {
        assert c !in [s[0]] + rest[0];
      }
    }
  }

  /** Separator-free text glued to either end of a string only lengthens
      the first and the last piece of its split. */
  lemma {:induction false} SplitFrame(t: string, a: string, b: string, sep: char)
    requires sep !in a && sep !in b
    ensures Split(a + t + b, sep) == Frame(Split(t, sep), a, b)
  {
    var ps := Split(t, sep);
    var f := Frame(ps, a, b);
    JoinSplit(t, sep);
    JoinFrame(ps, a, b, sep);
    forall k | 0 <= k < |f|
      ensures sep !in f[k]
    {
      var pre: string := if k == 0 then a else [];
      var post: string := if k == |ps| - 1 then b else [];
      assert f[k] == pre + ps[k] + post;
    }
    SplitJoin(f, sep);
  }

  /** Joining the pieces of a split gives the string back. */
  lemma {:induction false} JoinSplit(s: string, sep: char)
    ensures Join(Split(s, sep), sep) == s
  {
    if |s| > 0 {
      var rest := Split(s[1..], sep);
      JoinSplit(s[1..], sep);
      if s[0] == sep {
        assert s == [sep] + s[1..];
      } else {
        var ps := Split(s, sep);
        assert ps == [[s[0]] + rest[0]] + rest[1..];
        if |rest| == 1 {
          assert s == [s[0]] + s[1..];
        } else {
          assert ps[1..] == rest[1..];
          assert Join(rest, sep) == rest[0] + [sep] + Join(rest[1..], sep);
          assert s == [s[0]] + s[1..];
        }
      }
    }
  }

  /** Splitting a join of separator-free pieces gives the pieces back. */
  lemma {:induction false} SplitJoin(pieces: seq<string>, sep: char)
    requires |pieces| >= 1
    requires forall i :: 0 <= i < |pieces| ==> sep !in pieces[i]
    ensures Split(Join(pieces, sep), sep) == pieces
  {
    if |pieces| == 1 {
      SplitNoSep(pieces[0], sep);
    } else {
      var tail := pieces[1..];
      assert forall i :: 0 <= i < |tail| ==> tail[i] == pieces[i + 1];
      SplitJoin(tail, sep);
      assert Join(pieces, sep) == pieces[0] + [sep] + Join(tail, sep);
      SplitFirstPiece(pieces[0], Join(tail, sep), sep);
      assert [pieces[0]] + tail == pieces;
    }
  }

  /** A separator-free string splits into itself alone. */
  lemma {:induction false} SplitNoSep(s: string, sep: char)
    requires sep !in s
    ensures Split(s, sep) == [s]
  {
    if |s| > 0 {
      assert sep !in s[1..];
      SplitNoSep(s[1..], sep);
      assert s == [s[0]] + s[1..];
    }
  }

  /** A separator-free prefix followed by a separator becomes the first
      piece of the split. */
  lemma {:induction false} SplitFirstPiece(p: string, t: string, sep: char)
    requires sep !in p
    ensures Split(p + [sep] + t, sep) == [p] + Split(t, sep)
  {
    if |p| == 0 {
      assert p + [sep] + t == [sep] + t;
      assert ([sep] + t)[1..] == t;
    } else {
      assert sep !in p[1..];
      var s := p + [sep] + t;
      assert s[1..] == p[1..] + [sep] + t;
      SplitFirstPiece(p[1..], t, sep);
      var rest := Split(s[1..], sep);
      assert rest == [p[1..]] + Split(t, sep);
      assert s[0] == p[0] && p[0] != sep;
      assert Split(s, sep) == [[p[0]] + rest[0]] + rest[1..];
      assert [p[0]] + p[1..] == p;
    }
  }
}
